=== FILE: README.md ===
# Chart attribution labels and form-widget value rules, in Dafny

This project models two pieces of decision logic from the SmartCharts overlay
components. The DOM and React shells around them are left out.

**Attribution synchronizer** (`src/components/Attribution.js`). Setup inserts the
main attribution label on the `chart` panel. After that, a hook runs every time the
chart builds its data set. The hook does two things:

- It writes the catalog text for the chart's provenance into the main label. It
  writes only when the concatenated text differs from the label's `lastAttrib` cache.
- It walks the chart's studies and inserts one label per panel. The first eligible
  study wins.

In the model the hook is a pure step over explicit values:

- the host's marker registry, as a `seq<Marker>` that is only ever appended to;
- the main label, as its two sub-region texts plus the cache;
- a snapshot of the chart: optional provenance, studies in iteration order, and the
  set of rendered panels;
- the message catalog.

The hook returns the new state and a log of label writes (`Render`). Each write
stands for "write both sub-regions, then localise the label".

**Form widget values** (`src/components/Form.jsx`):

- the numeric input's clamp-and-report rule when props change;
- the same clamp when a change fires;
- the ±1 steppers;
- the font setting's record-spread updates, the toggles that read the record back, and
  the `title` props computed from it (which the drop-down never reads);
- the colour picker's resolution of `'auto'` to the theme default.

Files:

- `wrappers.dfy`: `Option`.
- `catalog.dfy`: the catalog and the lookup with empty-string fallback.
- `registry.dfy`: markers, insert, and the inner scan.
- `attribution.dfy`: setup, the main-label update, the per-study step and pass, the hook,
  and the loop form of the pass.
- `attribution_proofs.dfy`: the synchronizer's properties.
- `numeric_input.dfy`, `font_setting.dfy`, `decimal.dfy`, `color_picker.dfy`: the
  form widgets.

## Behaviour worth knowing

- **Panel existence uses the study's key.** The duplicate test compares the
  descriptor's `.panel`. The panel-existence test and the new marker use the key of
  the study in the layout table (`Attribution.js:66`, `:68`, `:73`). "One label per
  panel" and "a second pass adds nothing" therefore hold only when every study that
  could be labelled (it has a source and its key is a rendered panel) is keyed by its
  panel. Those lemmas take that hypothesis (`EligibleKeysArePanels`); studies that can
  never be labelled are unconstrained. `KeyPanelMismatchRelabels` shows that on any
  registry without a label on the descriptor's panel, an eligible study keyed apart
  from its panel is labelled on its key again on every pass; `SetupKeyPanelMismatch`
  is the instance after setup with a study keyed `A` on panel `B`.
- **Empty catalog entries count as missing.** A study is attributable only when its
  source entry is truthy (`:64`), so an empty entry counts as no entry.
- **The cache holds only the concatenation.** The main label is rewritten only when
  `source + exchange` changes. A provenance change that moves text between the two
  sub-regions without changing the concatenation is not shown
  (`ConcatenatedCacheMasksSplitChange`).
- **Crossed bounds.** When `min > max`, a value above `max` becomes `max`, even though
  it is also below `min`. Every other value becomes `min`. So firing the change again
  on a stored `max` reports `min` (`CrossedBoundsFlip`).
- **Mounting undoes the first clamp.** The first derivation stores the bounded prop
  value. `componentDidMount` runs afterwards and stores the raw prop value. That value
  stays until the prop changes or the change fires (on blur, on Enter or after a
  stepper), which bounds it again (`MountUndoesFirstClamp`).
- **The font drop-down titles are never shown.** The font setting passes a `title` to
  each drop-down, but the drop-down shows only its `value` prop as its text
  (`Form.jsx:135`) and never reads `title`; `value` is not passed. The model
  computes the `title` expressions, but nothing displays them.

## Model

| member | source | states |
|---|---|---|
| `Catalog.Resolve` | src/components/Attribution.js:50-53 | A lookup yields the empty string exactly when the key is missing or its entry is empty; otherwise it yields the entry, never an undefined value |
| `Registry.Insert` | src/components/Attribution.js:23-33 | Inserting appends exactly one marker tagged `attribution`, bound to the given panel, with both positioners `none`; the earlier registry is an unchanged prefix, and the attribution panel list grows by exactly that panel |
| `Registry.HasAttributionFor` | src/components/Attribution.js:65-67 | The linear scan over the markers reports a match exactly when the panel is among the attribution markers' panel names |
| `Attribution.Setup` | src/components/Attribution.js:42-44 | Setup appends one attribution marker on `chart` to the registry and leaves the main label with no cached text |
| `Attribution.UpdateMain` | src/components/Attribution.js:47-59 | With no provenance, nothing is written or changed. With a provenance, the cache afterwards holds `source + exchange`. A write happens exactly when that text differs from the previous cache; it puts the resolved source and exchange fragments into the two sub-regions. Without a write, the label is unchanged |
| `Attribution.StudyStep` | src/components/Attribution.js:62-77 | A study gets a marker exactly when its type has a truthy source, no attribution marker names its descriptor panel, and its key is a rendered panel. The marker is then bound to the key, and the write carries the catalog text for the type (empty when absent). Otherwise nothing changes |
| `Attribution.StudyPass` | src/components/Attribution.js:61-78 | Over all studies, the registry only grows at the end, and the attribution panel list grows by exactly the panels written, in order |
| `Attribution.OnDataSetCreated` | src/components/Attribution.js:46-79 | The hook only appends to the registry. Without provenance it leaves the main label untouched; with provenance, the main cache afterwards holds the composite text. At most the first write goes to the main label (panel `chart`), and the attribution panels grow by exactly the panels of the writes after it |
| `Attribution.RunStudyStep` | src/components/Attribution.js:63-77 | The imperative iteration (truthiness test, marker scan, panel test, insert) computes exactly the functional step |
| `Attribution.RunStudyPass` | src/components/Attribution.js:61-78 | The source's loop over studies computes exactly the functional pass, including the visibility of earlier inserts to later studies |
| `AttributionProofs.PassRendersOnlyEligible` | src/components/Attribution.js:64-75 | Every write in a pass labels a study that has a catalog source and a rendered key panel, and whose panel had no label when the pass began. The write uses that study's catalog text; studies without an entry never get a label |
| `AttributionProofs.PassCoversEligible` | src/components/Attribution.js:61-78 | When eligible studies are keyed by their panels, after a pass every eligible study's panel carries an attribution label |
| `AttributionProofs.PassNoOp` | src/components/Attribution.js:64-68 | A pass in which every eligible study's panel is already labelled writes nothing and leaves the registry unchanged |
| `AttributionProofs.PassIdempotent` | src/components/Attribution.js:61-78 | When eligible studies are keyed by their panels, a second pass on an unchanged snapshot adds no marker and writes nothing |
| `AttributionProofs.PassKeepsOneLabelPerPanel` | src/components/Attribution.js:65-73 | When eligible studies are keyed by their panels, a registry with at most one label per panel keeps that property through a pass |
| `AttributionProofs.PassConcat` | src/components/Attribution.js:61-78 | A pass over two runs of studies equals the pass over the first run, then the pass over the second on the registry the first left |
| `AttributionProofs.LaterStudyOnSamePanelSuppressed` | src/components/Attribution.js:65-66 | First writer wins: after an eligible study keyed by its panel, a later study naming the same panel is skipped, whatever its type and whatever studies come before, between or in the pass |
| `AttributionProofs.PassNeverRelabels` | src/components/Attribution.js:65-73 | A labelled panel receives no write and no second marker in a pass, unless some eligible study keyed by that panel names a different panel |
| `AttributionProofs.KeyPanelMismatchRelabels` | src/components/Attribution.js:66-73 | For every registry that does not label the descriptor's panel, an eligible study whose key differs from its panel is labelled on its key in each of two passes: the panels grow by the key twice and the second pass writes the study's render again |
| `AttributionProofs.SetupKeyPanelMismatch` | src/components/Attribution.js:44-73 | Instance: after setup, a study keyed `A` on descriptor panel `B` leaves the attribution panels `chart`, `A`, `A` after two passes |
| `AttributionProofs.MainIdempotent` | src/components/Attribution.js:54-58 | A second main-label reconciliation with the same provenance performs no write and changes nothing |
| `AttributionProofs.MainShowsProvenance` | src/components/Attribution.js:49-58 | Reconciliation keeps the sub-regions spelling out the cache; with a provenance, the label then shows exactly its catalog text |
| `AttributionProofs.ConcatenatedCacheMasksSplitChange` | src/components/Attribution.js:54-58 | Counterexample: a provenance whose source now resolves to empty keeps the old source text, because the concatenation did not change |
| `AttributionProofs.CatalogSpecimens` | src/components/Attribution.js:93-107 | In the shipped catalog, `xignite`/`DELAYED` concatenate without a separator, an unknown source resolves to the empty string while `EOD` resolves to its text, and `sma` has no source |
| `AttributionProofs.SetupLabelsChartOnce` | src/components/Attribution.js:44 | On a registry without a chart label, setup labels `chart` exactly once and keeps one label per panel |
| `AttributionProofs.ChartStudiesNeverLabelled` | src/components/Attribution.js:44-66 | Once `chart` is labelled, no write in a pass comes from a study whose descriptor panel is `chart` |
| `AttributionProofs.HookKeepsSingleChartLabel` | src/components/Attribution.js:44-73 | The chart panel keeps exactly one label through the hook, unless an eligible study keyed `chart` names another panel |
| `AttributionProofs.HookKeepsOneLabelPerPanel` | src/components/Attribution.js:61-78 | When eligible studies are keyed by their panels, the hook preserves one label per panel |
| `AttributionProofs.HookIdempotent` | src/components/Attribution.js:46-79 | When eligible studies are keyed by their panels, running the hook twice on an unchanged snapshot writes nothing the second time and leaves the state as the first run left it |
| `AttributionProofs.HookCoversEligible` | src/components/Attribution.js:61-78 | When eligible studies are keyed by their panels, every study with a source whose key is a rendered panel has its panel labelled after the hook |
| `AttributionProofs.HookWritesOnlyEligible` | src/components/Attribution.js:49-76 | Every write of the hook is either the main label's catalog text for the provenance, or the catalog render of an eligible study whose panel was unlabelled when the hook began |
| `AttributionProofs.PanelNotReadyDeferred` | src/components/Attribution.js:61-78 | Within a pass, a study whose key is not a rendered panel acts as if it were absent. Once that panel exists, a pass over the same studies labels it, provided its type has a source and its descriptor panel carries no attribution label after the studies before it, counting labels from before the pass |
| `NumericInput.Bound` | src/components/Form.jsx:338-342 | The value is unchanged exactly when it violates no defined bound. A value above the maximum becomes the maximum, even when it is also below the minimum; a value only below the minimum becomes the minimum. With ordered bounds, the result is within them |
| `NumericInput.DeriveState` | src/components/Form.jsx:334-350 | No update and no report happen exactly when the value equals the remembered original. Otherwise the original becomes the raw value, and the stored value and the reported value are both the bounded value |
| `NumericInput.FireOnChange` | src/components/Form.jsx:352-362 | The reported value is the bounded edited value, and the state's value becomes exactly the reported value. An in-bounds value leaves the state as it is |
| `NumericInput.OnIncrease` | src/components/Form.jsx:378 | The step up reports the bounded value of the old value plus one and stores what it reports |
| `NumericInput.OnDecrease` | src/components/Form.jsx:379 | The step down reports the bounded value of the old value minus one and stores what it reports |
| `NumericInput.DidMount` | src/components/Form.jsx:327-332 | Mounting stores the raw prop value as both the original value and the current value |
| `NumericInput.MountUndoesFirstClamp` | src/components/Form.jsx:327-358 | After the first derivation, mounting keeps the stored value exactly when the prop was within bounds. An out-of-bounds prop is stored unbounded, the same prop then derives nothing, and firing the change stores the value the first derivation stored |
| `NumericInput.DeriveSettles` | src/components/Form.jsx:319-350 | The first props after construction always derive an update. After an update is applied, the same props derive nothing and report nothing |
| `NumericInput.DeriveAgreesWithFire` | src/components/Form.jsx:338-361 | Firing a change on the raw prop value reports the same value that deriving state from that prop reported |
| `NumericInput.BoundIdempotent` | src/components/Form.jsx:338-342 | With ordered bounds, bounding a bounded value changes nothing |
| `NumericInput.CrossedBoundsFlip` | src/components/Form.jsx:338-361 | With minimum 10 and maximum 0, 5 is clamped to 0, and clamping 0 again yields 10 |
| `NumericInput.SteppersMoveByOne` | src/components/Form.jsx:378-379 | Within the bounds the step up reports exactly one more, and a step down afterwards restores the original state |
| `NumericInput.SteppersSaturate` | src/components/Form.jsx:378-379 | With ordered bounds, stepping up at or beyond the maximum reports the maximum, and stepping down at or below the minimum reports the minimum |
| `Decimal.NatToString` | src/components/Form.jsx:465 | A number renders as a non-empty run of decimal digits without a leading zero |
| `Decimal.IntRoundTrip` | src/components/Form.jsx:465 | Parsing the decimal rendering of an integer gives back the integer |
| `FontSetting.FireChange` | src/components/Form.jsx:463 | The spread's keys are the union of both records' keys; the change's values win, and every other key keeps its value |
| `FontSetting.OnFontFamilyChange` | src/components/Form.jsx:464 | Only `family` changes, and it becomes the chosen name |
| `FontSetting.OnFontSizeChange` | src/components/Form.jsx:465 | Only `size` changes, and it becomes the number followed by `px` |
| `FontSetting.OnBoldChange` | src/components/Form.jsx:466 | Only `weight` changes: `bold` when set, otherwise a present key holding undefined |
| `FontSetting.OnItalicChange` | src/components/Form.jsx:467 | Only `style` changes: `italic` when set, otherwise a present key holding undefined |
| `FontSetting.TogglesShowChoice` | src/components/Form.jsx:466-481 | Each toggle's active state afterwards is the choice just made, and changing one toggle leaves the other's state alone |
| `FontSetting.SizeRowsRoundTrip` | src/components/Form.jsx:461-489 | Every row of the size drop-down, once chosen, is stored as a size that parses back to that row, and the default size title `13px` is the stored form of the row 13 |
| `FontSetting.SizeTitleRoundTrip` | src/components/Form.jsx:465-489 | After a size change, the size drop-down's `title` prop is `<n>px`, which parses back to the chosen number |
| `FontSetting.FamilyTitleHoldsChoice` | src/components/Form.jsx:464-497 | After a family change, the family drop-down's `title` prop is the chosen name, or `Default` for an empty name |
| `FontSetting.ChangesCommuteAndSettle` | src/components/Form.jsx:463-467 | Bold and italic changes commute, and repeating a change has no further effect |
| `ColorPicker.DefaultColor` | src/components/Form.jsx:226 | The default is `#000000` exactly on the `light` theme and `#ffffff` on every other theme |
| `ColorPicker.BackgroundColor` | src/components/Form.jsx:239 | `auto` shows the theme default; every other colour is shown unchanged |
| `ColorPicker.BackgroundColorResolved` | src/components/Form.jsx:226-239 | The swatch colour is never `auto`, so resolving it again changes nothing; a concrete colour looks the same on every theme |

## Left out

- DOM work is not modelled: template instantiation, jQuery `find`/`html`/`attr`, and
  the internals of the host's marker class. A marker is a registry entry. A label write
  is a `Render` record.
- The localisation call after each write (`CIQ.I18N.translateUI`) is foreign code. Its
  place in the order is recorded only as part of a `Render`.
- Web-component and hook plumbing is not modelled (`attachedCallback`,
  `addInjection`, `document.registerElement`): the hook is a plain function of the
  state and a snapshot.
- A null or undefined provenance field is a JavaScript property lookup under the key
  `"null"` or `"undefined"`. Provenance fields are plain strings here, and a caller
  passes those keys.
- Inherited object properties (for example a study type `constructor`) are not
  modelled: catalog lookups see only the catalog's own entries.
- Labels are never removed, neither in the model nor in the source.
- `PassCoversEligible`, `PassIdempotent`, `PassKeepsOneLabelPerPanel`,
  `HookKeepsOneLabelPerPanel`, `HookIdempotent` and `HookCoversEligible` assume that
  every eligible study's key equals its panel. `LaterStudyOnSamePanelSuppressed` assumes it only of the first
  writer. The source does not enforce this; the counterexample without it is
  `KeyPanelMismatchRelabels`.
- `NumericInput.DeriveState`: the stored value is the bounded value only for prop
  changes after mount. On the first render, `componentDidMount` replaces it with the
  raw prop (`DidMount`, `MountUndoesFirstClamp`).
- `NumericInput.FireOnChange`, `NumericInput.OnIncrease`, `NumericInput.OnDecrease`,
  `NumericInput.DeriveState` and `NumericInput.Bound` treat values as unbounded
  integers. The source's state value can be a string typed into the input, and then
  `+ 1` concatenates and `>`/`<` coerce. Such a string, once reported, comes back as
  the `value` prop and meets `!==` and `>`/`<` in the derivation as well.
- The debounce on the change handler is not modelled (300 ms, leading edge): only its
  body is.
- `onUpdateValue` and `fireOnEnter` of the numeric input are not modelled. They copy
  the typed text into state, or filter keys and trigger the change.
- `Decimal.IntRoundTrip` covers integer sizes only. The drop-down offers integers;
  JavaScript's rendering of fractional or exponent-form numbers is not modelled.
- Other widgets carry no decision logic beyond rendering and event wiring and are not
  modelled: `Slider` (its active width is floating-point layout), `DropDown` and the
  colour picker's popover state, `Pattern`, `Checkbox`, `Switch`, `SwitchIcon`,
  `Toggle`, `FormGroup` and `NumberColorPicker`.
- `src/components/CrosshairToggle.jsx` only wires a store to a component.

=== FILE: attribution.dfy ===
/** The attribution synchronizer: the hook that runs after every data-set build and
    reconciles the main chart's attribution label and the per-study labels against a
    snapshot of the chart. The DOM is replaced by a log of label writes. */
module Attribution {

  import opened Wrappers
  import opened Catalog
  import opened Registry

  /** The fixed name of the main price panel. */
  const ChartPanel := "chart"

  /** Where the chart's price data came from. */
  datatype Provenance = Provenance(source: string, exchange: string)

  /** One entry of the chart layout's study table: its key in that table, its type,
      and the panel named by its descriptor. */
  datatype Study = Study(key: string, studyType: string, panel: string)

  /** What the hook reads from the chart: the provenance object if there is one, the
      studies in iteration order, and the names of the rendered panels. */
  datatype Snapshot = Snapshot(provenance: Option<Provenance>, studies: seq<Study>, panels: set<string>)

  /** One label write: both sub-regions of the label bound to `panelName` receive their
      text, after which the label's subtree is localised. */
  datatype Render = Render(panelName: string, source: string, exchange: string)

  /** The main label: the text of its two sub-regions and its `lastAttrib` cache, which
      is absent until the label is first written. */
  datatype Label = Label(source: string, exchange: string, lastAttrib: Option<string>)

  /** The synchronizer's state: the host registry and the main label. */
  datatype Sync = Sync(registry: seq<Marker>, main: Label)

  datatype MainUpdate = MainUpdate(updated: Label, renders: seq<Render>)
  datatype Pass = Pass(registry: seq<Marker>, renders: seq<Render>)
  datatype Outcome = Outcome(state: Sync, renders: seq<Render>)

  /** A label as instantiated from the template: empty sub-regions, no cache. */
  const FreshLabel := Label("", "", None)

  /** The panel names of a sequence of writes, in order. */
  function RenderedPanels(renders: seq<Render>): seq<string>
  {
    if renders == [] then [] else [renders[0].panelName] + RenderedPanels(renders[1..])
  }

  lemma {:induction false} RenderedPanelsAppend(a: seq<Render>, b: seq<Render>)
    ensures RenderedPanels(a + b) == RenderedPanels(a) + RenderedPanels(b)
    decreases |a|
  {
    if a != [] {
      assert (a + b)[1..] == a[1..] + b;
      RenderedPanelsAppend(a[1..], b);
    } else {
      assert a + b == b;
    }
  }

  /** The composite text the `lastAttrib` cache holds for a provenance. */
  function Composite(p: Provenance, cat: Catalog): string {
    Resolve(cat.sources, p.source) + Resolve(cat.exchanges, p.exchange)
  }

  /** Setup: the main label is inserted on the chart panel. */
  function Setup(registry: seq<Marker>): (s: Sync)
    ensures |s.registry| == |registry| + 1 && s.registry[..|registry|] == registry
    ensures AttributionPanels(s.registry) == AttributionPanels(registry) + [ChartPanel]
    ensures s.main.lastAttrib == None
  {
    Sync(Insert(registry, ChartPanel), FreshLabel)
  }

  /** Main-label reconciliation: with a provenance, both fragments are resolved (missing
      entries become empty) and the label is written only when their concatenation
      differs from the cache; without one, nothing happens. */
  function UpdateMain(current: Label, provenance: Option<Provenance>, cat: Catalog): (r: MainUpdate)
    ensures provenance.None? ==> r == MainUpdate(current, [])
    ensures provenance.Some? ==> r.updated.lastAttrib == Some(Composite(provenance.value, cat))
    ensures r.renders != [] <==>
              provenance.Some? && current.lastAttrib != Some(Composite(provenance.value, cat))
    ensures r.renders == [] ==> r.updated == current
    ensures r.renders != [] ==>
              var source := Resolve(cat.sources, provenance.value.source);
              var exchange := Resolve(cat.exchanges, provenance.value.exchange);
              && r.renders == [Render(ChartPanel, source, exchange)]
              && r.updated.source == source
              && r.updated.exchange == exchange
  {
    match provenance
    case None => MainUpdate(current, [])
    case Some(p) =>
      var source := Resolve(cat.sources, p.source);
      var exchange := Resolve(cat.exchanges, p.exchange);
      if Some(source + exchange) != current.lastAttrib then
        MainUpdate(Label(source, exchange, Some(source + exchange)), [Render(ChartPanel, source, exchange)])
      else
        MainUpdate(current, [])
  }

  /** A study may receive a label when its type has a source entry and its key names a
      rendered panel. */
  predicate Eligible(s: Study, panels: set<string>, cat: Catalog) {
    HasSource(cat, s.studyType) && s.key in panels
  }

  /** The write that labels a study: bound to the study's key, with the catalog text
      for its type. */
  function StudyRender(s: Study, cat: Catalog): Render {
    Render(s.key, Resolve(cat.sources, s.studyType), Resolve(cat.exchanges, s.studyType))
  }

  /** One iteration of the per-study loop. The duplicate test looks for the descriptor's
      panel among the attribution markers; the existence test and the new marker use
      the study's key. */
  function StudyStep(registry: seq<Marker>, s: Study, panels: set<string>, cat: Catalog): (r: Pass)
    ensures r.registry == registry || r.registry == Insert(registry, s.key)
    ensures r.registry != registry <==>
              Eligible(s, panels, cat) && s.panel !in AttributionPanels(registry)
    ensures r.registry == registry ==> r.renders == []
    ensures r.registry != registry ==> r.renders == [StudyRender(s, cat)]
    ensures AttributionPanels(r.registry) == AttributionPanels(registry) + RenderedPanels(r.renders)
  {
    if !HasSource(cat, s.studyType) then Pass(registry, [])
    else if s.panel in AttributionPanels(registry) then Pass(registry, [])
    else if s.key !in panels then Pass(registry, [])
    else Pass(Insert(registry, s.key), [StudyRender(s, cat)])
  }

  /** The per-study loop: studies in order, each seeing the markers inserted for the
      ones before it. Markers are only appended, and the attribution panels grow by
      exactly the panels written, in order. */
  function StudyPass(registry: seq<Marker>, studies: seq<Study>, panels: set<string>, cat: Catalog): (r: Pass)
    ensures |registry| <= |r.registry| && r.registry[..|registry|] == registry
    ensures AttributionPanels(r.registry) == AttributionPanels(registry) + RenderedPanels(r.renders)
    decreases |studies|
  {
    if studies == [] then Pass(registry, [])
    else
      var step := StudyStep(registry, studies[0], panels, cat);
      var rest := StudyPass(step.registry, studies[1..], panels, cat);
      assert rest.registry[..|registry|] == rest.registry[..|step.registry|][..|registry|];
      RenderedPanelsAppend(step.renders, rest.renders);
      Pass(rest.registry, step.renders + rest.renders)
  }

  /** The data-set-created hook: main label first, then the per-study loop. At most the
      first write goes to the main label; the attribution panels grow by exactly the
      panels of the writes after it. */
  function OnDataSetCreated(s: Sync, snap: Snapshot, cat: Catalog): (r: Outcome)
    ensures |s.registry| <= |r.state.registry| && r.state.registry[..|s.registry|] == s.registry
    ensures snap.provenance.None? ==> r.state.main == s.main
    ensures snap.provenance.Some? ==> r.state.main.lastAttrib == Some(Composite(snap.provenance.value, cat))
    ensures var k := |UpdateMain(s.main, snap.provenance, cat).renders|;
            && k <= 1 && k <= |r.renders|
            && (k == 1 ==> r.renders[0].panelName == ChartPanel)
            && AttributionPanels(r.state.registry) == AttributionPanels(s.registry) + RenderedPanels(r.renders[k..])
  {
    var main := UpdateMain(s.main, snap.provenance, cat);
    var pass := StudyPass(s.registry, snap.studies, snap.panels, cat);
    assert (main.renders + pass.renders)[|main.renders|..] == pass.renders;
    Outcome(Sync(pass.registry, main.updated), main.renders + pass.renders)
  }

  lemma AppendAssociates<T>(a: seq<T>, b: seq<T>, c: seq<T>)
    ensures (a + b) + c == a + (b + c)
  {
  }

  /** One iteration of the source's loop: the truthiness test, the inner scan of the
      attribution markers, the panel-existence test, then the insert. */
  method RunStudyStep(registry: seq<Marker>, s: Study, panels: set<string>, cat: Catalog)
    returns (reg: seq<Marker>, added: seq<Render>)
    ensures Pass(reg, added) == StudyStep(registry, s, panels, cat)
  {
    reg, added := registry, [];
    if Resolve(cat.sources, s.studyType) != "" {
      var taken := HasAttributionFor(registry, s.panel);
      if !taken && s.key in panels {
        reg := Insert(registry, s.key);
        added := [StudyRender(s, cat)];
      }
    }
  }

  /** The per-study loop as the source writes it, over the studies in order. */
  method RunStudyPass(registry: seq<Marker>, studies: seq<Study>, panels: set<string>, cat: Catalog)
    returns (reg: seq<Marker>, renders: seq<Render>)
    ensures Pass(reg, renders) == StudyPass(registry, studies, panels, cat)
  {
    reg := registry;
    renders := [];
    ghost var total := StudyPass(registry, studies, panels, cat);
    var i := 0;
    assert studies[0..] == studies;
    while i < |studies|
      invariant 0 <= i <= |studies|
      invariant StudyPass(reg, studies[i..], panels, cat).registry == total.registry
      invariant renders + StudyPass(reg, studies[i..], panels, cat).renders == total.renders
    {
      ghost var rest := StudyPass(reg, studies[i..], panels, cat);
      assert studies[i..][1..] == studies[i + 1..];
      var added;
      reg, added := RunStudyStep(reg, studies[i], panels, cat);
      ghost var tail := StudyPass(reg, studies[i + 1..], panels, cat);
      assert rest == Pass(tail.registry, added + tail.renders);
      AppendAssociates(renders, added, tail.renders);
      renders := renders + added;
      i := i + 1;
    }
    assert studies[i..] == [];
  }
}

=== FILE: attribution_proofs.dfy ===
/** Properties of the attribution synchronizer: what a pass may and must write, the
    one-label-per-panel invariant, first-writer-wins, idempotence, and the two places
    where the source's behaviour depends on a hypothesis it does not enforce. */
module AttributionProofs {

  import opened Wrappers
  import opened Catalog
  import opened Registry
  import opened Attribution

  /** Every study that could receive a label is keyed by the name of the panel its
      descriptor names; studies without a source or without a rendered key panel are
      unconstrained. */
  predicate EligibleKeysArePanels(studies: seq<Study>, panels: set<string>, cat: Catalog) {
    forall s :: s in studies && Eligible(s, panels, cat) ==> s.key == s.panel
  }

  predicate NoDuplicates(xs: seq<string>) {
    forall i, j :: 0 <= i < j < |xs| ==> xs[i] != xs[j]
  }

  /** The main label's sub-regions spell out its cache whenever the cache is set. */
  predicate Consistent(l: Label) {
    l.lastAttrib.Some? ==> l.lastAttrib.value == l.source + l.exchange
  }

  // ---------------------------------------------------------------------------
  // Per-study pass
  // ---------------------------------------------------------------------------

  /** Every write of a pass labels an eligible study whose panel had no attribution
      marker when the pass began, with that study's catalog text: no catalog entry, no
      rendered panel, or an existing label all mean no write. */
  lemma {:induction false} PassRendersOnlyEligible(registry: seq<Marker>, studies: seq<Study>, panels: set<string>, cat: Catalog)
    ensures forall r :: r in StudyPass(registry, studies, panels, cat).renders ==>
              exists s :: s in studies && Eligible(s, panels, cat)
                          && s.panel !in AttributionPanels(registry) && r == StudyRender(s, cat)
    decreases |studies|
  {
    if studies != [] {
      var step := StudyStep(registry, studies[0], panels, cat);
      var rest := StudyPass(step.registry, studies[1..], panels, cat);
      PassRendersOnlyEligible(step.registry, studies[1..], panels, cat);
      forall r | r in StudyPass(registry, studies, panels, cat).renders
        ensures exists s :: s in studies && Eligible(s, panels, cat)
                            && s.panel !in AttributionPanels(registry) && r == StudyRender(s, cat)
      {
        if r in step.renders {
          assert studies[0] in studies;
        } else {
          assert r in rest.renders;
          var s :| s in studies[1..] && Eligible(s, panels, cat)
                   && s.panel !in AttributionPanels(step.registry) && r == StudyRender(s, cat);
          assert s in studies;
        }
      }
    }
  }

  /** When eligible studies are keyed by their panels, after a pass every eligible
      study's panel carries an attribution label. */
  lemma {:induction false} PassCoversEligible(registry: seq<Marker>, studies: seq<Study>, panels: set<string>, cat: Catalog)
    requires EligibleKeysArePanels(studies, panels, cat)
    ensures forall s :: s in studies && Eligible(s, panels, cat) ==>
              s.panel in AttributionPanels(StudyPass(registry, studies, panels, cat).registry)
    decreases |studies|
  {
    if studies != [] {
      var step := StudyStep(registry, studies[0], panels, cat);
      var rest := StudyPass(step.registry, studies[1..], panels, cat);
      assert EligibleKeysArePanels(studies[1..], panels, cat) by {
        forall s | s in studies[1..] && Eligible(s, panels, cat) ensures s.key == s.panel {
          assert s in studies;
        }
      }
      PassCoversEligible(step.registry, studies[1..], panels, cat);
      assert studies[0] in studies;
      if Eligible(studies[0], panels, cat) {
        assert studies[0].panel in AttributionPanels(step.registry);
      }
      forall s | s in studies && Eligible(s, panels, cat)
        ensures s.panel in AttributionPanels(rest.registry)
      {
        if s != studies[0] {
          assert s in studies[1..];
        }
      }
    }
  }

  /** A pass in which every eligible study's panel is already labelled writes nothing. */
  lemma {:induction false} PassNoOp(registry: seq<Marker>, studies: seq<Study>, panels: set<string>, cat: Catalog)
    requires forall s :: s in studies && Eligible(s, panels, cat) ==> s.panel in AttributionPanels(registry)
    ensures StudyPass(registry, studies, panels, cat) == Pass(registry, [])
    decreases |studies|
  {
    if studies != [] {
      assert studies[0] in studies;
      forall s | s in studies[1..] && Eligible(s, panels, cat)
        ensures s.panel in AttributionPanels(registry)
      {
        assert s in studies;
      }
      PassNoOp(registry, studies[1..], panels, cat);
    }
  }

  /** When eligible studies are keyed by their panels, a second pass over an unchanged
      snapshot adds no marker and writes nothing. */
  lemma PassIdempotent(registry: seq<Marker>, studies: seq<Study>, panels: set<string>, cat: Catalog)
    requires EligibleKeysArePanels(studies, panels, cat)
    ensures var first := StudyPass(registry, studies, panels, cat);
            StudyPass(first.registry, studies, panels, cat) == Pass(first.registry, [])
  {
    var first := StudyPass(registry, studies, panels, cat);
    PassCoversEligible(registry, studies, panels, cat);
    PassNoOp(first.registry, studies, panels, cat);
  }

  /** When eligible studies are keyed by their panels, a pass never labels a panel
      twice. */
  lemma {:induction false} PassKeepsOneLabelPerPanel(registry: seq<Marker>, studies: seq<Study>, panels: set<string>, cat: Catalog)
    requires EligibleKeysArePanels(studies, panels, cat)
    requires NoDuplicates(AttributionPanels(registry))
    ensures NoDuplicates(AttributionPanels(StudyPass(registry, studies, panels, cat).registry))
    decreases |studies|
  {
    if studies != [] {
      var step := StudyStep(registry, studies[0], panels, cat);
      assert studies[0] in studies;
      if step.registry != registry {
        AppendFreshKeepsNoDuplicates(AttributionPanels(registry), studies[0].key);
      }
      assert EligibleKeysArePanels(studies[1..], panels, cat) by {
        forall s | s in studies[1..] && Eligible(s, panels, cat) ensures s.key == s.panel {
          assert s in studies;
        }
      }
      PassKeepsOneLabelPerPanel(step.registry, studies[1..], panels, cat);
    }
  }

  lemma AppendFreshKeepsNoDuplicates(xs: seq<string>, x: string)
    requires NoDuplicates(xs) && x !in xs
    ensures NoDuplicates(xs + [x])
  {
    forall i, j | 0 <= i < j < |xs + [x]| ensures (xs + [x])[i] != (xs + [x])[j] {
      if j == |xs| {
        assert (xs + [x])[i] == xs[i];
      }
    }
  }

  /** A pass over a concatenation is the pass over the first part followed by the pass
      over the second, on the registry the first part left. */
  lemma {:induction false} PassConcat(registry: seq<Marker>, a: seq<Study>, b: seq<Study>, panels: set<string>, cat: Catalog)
    ensures var first := StudyPass(registry, a, panels, cat);
            var second := StudyPass(first.registry, b, panels, cat);
            StudyPass(registry, a + b, panels, cat) == Pass(second.registry, first.renders + second.renders)
    decreases |a|
  {
    if a == [] {
      assert a + b == b;
    } else {
      assert (a + b)[0] == a[0] && (a + b)[1..] == a[1..] + b;
      var step := StudyStep(registry, a[0], panels, cat);
      PassConcat(step.registry, a[1..], b, panels, cat);
      var first := StudyPass(step.registry, a[1..], panels, cat);
      var second := StudyPass(first.registry, b, panels, cat);
      AppendAssociates(step.renders, first.renders, second.renders);
    }
  }

  /** First writer wins: once an eligible study keyed by its panel has been processed,
      a later study naming the same panel is skipped, whatever its type and whatever
      the studies in between. */
  lemma LaterStudyOnSamePanelSuppressed(registry: seq<Marker>, pre: seq<Study>, winner: Study, mid: seq<Study>,
                                        later: Study, panels: set<string>, cat: Catalog)
    requires Eligible(winner, panels, cat) && winner.key == winner.panel == later.panel
    ensures StudyPass(registry, pre + [winner] + mid + [later], panels, cat)
         == StudyPass(registry, pre + [winner] + mid, panels, cat)
  {
    var before := StudyPass(registry, pre, panels, cat);
    var upToWinner := StudyPass(registry, pre + [winner], panels, cat);
    PassConcat(registry, pre, [winner], panels, cat);
    var step := StudyStep(before.registry, winner, panels, cat);
    assert [winner][1..] == [];
    assert StudyPass(step.registry, [], panels, cat) == Pass(step.registry, []);
    assert upToWinner.registry == step.registry;
    assert later.panel in AttributionPanels(upToWinner.registry);
    PassConcat(registry, pre + [winner], mid, panels, cat);
    var first := StudyPass(registry, pre + [winner] + mid, panels, cat);
    assert later.panel in AttributionPanels(first.registry);
    PassConcat(registry, pre + [winner] + mid, [later], panels, cat);
    assert [later][1..] == [];
    assert StudyPass(first.registry, [later], panels, cat) == Pass(first.registry, []);
    assert first.renders + [] == first.renders;
  }

  /** A labelled panel gains no second label in a pass unless some eligible study keyed
      by that panel names a different one. */
  lemma {:induction false} PassNeverRelabels(registry: seq<Marker>, studies: seq<Study>, panels: set<string>, cat: Catalog, panel: string)
    requires panel in AttributionPanels(registry)
    requires forall s :: s in studies && s.key == panel && Eligible(s, panels, cat) ==> s.panel == panel
    ensures panel !in RenderedPanels(StudyPass(registry, studies, panels, cat).renders)
    ensures multiset(AttributionPanels(StudyPass(registry, studies, panels, cat).registry))[panel]
         == multiset(AttributionPanels(registry))[panel]
    decreases |studies|
  {
    if studies != [] {
      var step := StudyStep(registry, studies[0], panels, cat);
      var rest := StudyPass(step.registry, studies[1..], panels, cat);
      assert studies[0] in studies;
      assert panel !in RenderedPanels(step.renders);
      forall s | s in studies[1..] && s.key == panel && Eligible(s, panels, cat) ensures s.panel == panel {
        assert s in studies;
      }
      PassNeverRelabels(step.registry, studies[1..], panels, cat, panel);
      RenderedPanelsAppend(step.renders, rest.renders);
    }
    var final := StudyPass(registry, studies, panels, cat);
    assert multiset(AttributionPanels(final.registry))
        == multiset(AttributionPanels(registry)) + multiset(RenderedPanels(final.renders));
  }

  /** Without the hypothesis the pass is not idempotent: an eligible study whose key
      differs from its descriptor's panel, on a registry that does not label that
      panel, is labelled on its key again on every pass. */
  lemma {:induction false} KeyPanelMismatchRelabels(registry: seq<Marker>, s: Study, panels: set<string>, cat: Catalog)
    requires Eligible(s, panels, cat) && s.key != s.panel && s.panel !in AttributionPanels(registry)
    ensures var first := StudyPass(registry, [s], panels, cat);
            var second := StudyPass(first.registry, [s], panels, cat);
            AttributionPanels(second.registry) == AttributionPanels(registry) + [s.key, s.key]
            && second.renders == [StudyRender(s, cat)]
  {
    SingleStudyPass(registry, s, panels, cat);
    var first := StudyPass(registry, [s], panels, cat);
    assert s.panel !in AttributionPanels(first.registry);
    SingleStudyPass(first.registry, s, panels, cat);
    assert AttributionPanels(first.registry) + [s.key] == AttributionPanels(registry) + [s.key, s.key];
  }

  /** The same on the registry right after setup: a study keyed 'A' whose descriptor
      names panel 'B' leaves two labels on 'A' after two passes. */
  lemma SetupKeyPanelMismatch()
    ensures var s := Study("A", "Twiggs", "B");
            var start := Setup([]).registry;
            var first := StudyPass(start, [s], {"A"}, Messages);
            var second := StudyPass(first.registry, [s], {"A"}, Messages);
            AttributionPanels(second.registry) == [ChartPanel, "A", "A"]
  {
    var s := Study("A", "Twiggs", "B");
    assert HasSource(Messages, "Twiggs");
    var start := Setup([]).registry;
    assert AttributionPanels(start) == [ChartPanel];
    KeyPanelMismatchRelabels(start, s, {"A"}, Messages);
  }

  // ---------------------------------------------------------------------------
  // Main label
  // ---------------------------------------------------------------------------

  /** A second reconciliation with the same provenance writes nothing and changes
      nothing. */
  lemma MainIdempotent(current: Label, provenance: Option<Provenance>, cat: Catalog)
    ensures var once := UpdateMain(current, provenance, cat);
            UpdateMain(once.updated, provenance, cat) == MainUpdate(once.updated, [])
  {
  }

  /** Reconciliation keeps the label consistent with its cache, and with a provenance
      the label then shows exactly the catalog text for it. */
  lemma MainShowsProvenance(current: Label, provenance: Option<Provenance>, cat: Catalog)
    requires Consistent(current)
    ensures Consistent(UpdateMain(current, provenance, cat).updated)
    ensures provenance.Some? ==>
              var shown := UpdateMain(current, provenance, cat).updated;
              shown.source + shown.exchange == Composite(provenance.value, cat)
  {
  }

  /** The cache holds only the concatenation, so a provenance change that moves text
      from one sub-region to the other without changing the concatenation is not
      rendered: here the source region keeps 'A' although the new source resolves to ''. */
  lemma ConcatenatedCacheMasksSplitChange()
    ensures var cat := Catalog(map["s" := "A"], map["e" := "A"]);
            var first := UpdateMain(FreshLabel, Some(Provenance("s", "none")), cat);
            var second := UpdateMain(first.updated, Some(Provenance("none", "e")), cat);
            && second.renders == []
            && second.updated.source == "A"
            && Resolve(cat.sources, "none") == ""
  {
    var cat := Catalog(map["s" := "A"], map["e" := "A"]);
    assert Resolve(cat.sources, "s") == "A" && Resolve(cat.exchanges, "none") == "";
    assert Resolve(cat.sources, "none") == "" && Resolve(cat.exchanges, "e") == "A";
    assert "A" + "" == "A" && "" + "A" == "A";
    var first := UpdateMain(FreshLabel, Some(Provenance("s", "none")), cat);
    assert first.updated == Label("A", "", Some("A"));
    assert Composite(Provenance("none", "e"), cat) == "A";
  }

  /** The shipped catalog: a known pair concatenates without separator, an unknown
      source resolves to '', and a study type without an entry is not attributable. */
  lemma CatalogSpecimens()
    ensures Composite(Provenance("xignite", "DELAYED"), Messages)
         == Messages.sources["xignite"] + Messages.exchanges["DELAYED"]
    ensures Resolve(Messages.sources, "unknown_id") == ""
    ensures Resolve(Messages.exchanges, "EOD") == "End of day data."
    ensures !HasSource(Messages, "sma")
  {
  }

  // ---------------------------------------------------------------------------
  // Setup and the whole hook
  // ---------------------------------------------------------------------------

  /** Setup labels the chart panel; on a registry without a chart label, exactly once
      and without creating a duplicate. */
  lemma SetupLabelsChartOnce(registry: seq<Marker>)
    requires ChartPanel !in AttributionPanels(registry)
    ensures ChartPanel in AttributionPanels(Setup(registry).registry)
    ensures multiset(AttributionPanels(Setup(registry).registry))[ChartPanel] == 1
    ensures NoDuplicates(AttributionPanels(registry)) ==>
              NoDuplicates(AttributionPanels(Setup(registry).registry))
  {
  }

  /** With the chart panel labelled, no study whose descriptor names the chart panel is
      ever labelled. */
  lemma ChartStudiesNeverLabelled(s: Sync, snap: Snapshot, cat: Catalog)
    requires ChartPanel in AttributionPanels(s.registry)
    ensures forall r :: r in StudyPass(s.registry, snap.studies, snap.panels, cat).renders ==>
              exists st :: st in snap.studies && st.panel != ChartPanel && r == StudyRender(st, cat)
  {
    PassRendersOnlyEligible(s.registry, snap.studies, snap.panels, cat);
  }

  /** The chart panel keeps exactly one label across a hook run, unless an eligible
      study keyed 'chart' names another panel. */
  lemma HookKeepsSingleChartLabel(s: Sync, snap: Snapshot, cat: Catalog)
    requires multiset(AttributionPanels(s.registry))[ChartPanel] == 1
    requires forall st :: st in snap.studies && st.key == ChartPanel && Eligible(st, snap.panels, cat) ==>
               st.panel == ChartPanel
    ensures multiset(AttributionPanels(OnDataSetCreated(s, snap, cat).state.registry))[ChartPanel] == 1
  {
    PassNeverRelabels(s.registry, snap.studies, snap.panels, cat, ChartPanel);
  }

  /** When eligible studies are keyed by their panels, the hook preserves one label per
      panel. */
  lemma HookKeepsOneLabelPerPanel(s: Sync, snap: Snapshot, cat: Catalog)
    requires EligibleKeysArePanels(snap.studies, snap.panels, cat)
    requires NoDuplicates(AttributionPanels(s.registry))
    ensures NoDuplicates(AttributionPanels(OnDataSetCreated(s, snap, cat).state.registry))
  {
    PassKeepsOneLabelPerPanel(s.registry, snap.studies, snap.panels, cat);
  }

  /** When eligible studies are keyed by their panels, running the hook again on an
      unchanged snapshot writes nothing and leaves the state as it is. */
  lemma HookIdempotent(s: Sync, snap: Snapshot, cat: Catalog)
    requires EligibleKeysArePanels(snap.studies, snap.panels, cat)
    ensures var once := OnDataSetCreated(s, snap, cat);
            OnDataSetCreated(once.state, snap, cat) == Outcome(once.state, [])
  {
    MainIdempotent(s.main, snap.provenance, cat);
    PassIdempotent(s.registry, snap.studies, snap.panels, cat);
  }

  /** When eligible studies are keyed by their panels, every eligible study's panel is
      labelled once the hook has run. */
  lemma HookCoversEligible(s: Sync, snap: Snapshot, cat: Catalog)
    requires EligibleKeysArePanels(snap.studies, snap.panels, cat)
    ensures forall st :: st in snap.studies && Eligible(st, snap.panels, cat) ==>
              st.panel in AttributionPanels(OnDataSetCreated(s, snap, cat).state.registry)
  {
    PassCoversEligible(s.registry, snap.studies, snap.panels, cat);
  }

  /** Every write of the hook is the main label's catalog text for the provenance, or
      the render of an eligible study whose panel was unlabelled when the hook began. */
  lemma HookWritesOnlyEligible(s: Sync, snap: Snapshot, cat: Catalog)
    ensures forall w :: w in OnDataSetCreated(s, snap, cat).renders ==>
              || (snap.provenance.Some?
                  && w == Render(ChartPanel, Resolve(cat.sources, snap.provenance.value.source),
                                 Resolve(cat.exchanges, snap.provenance.value.exchange)))
              || (exists st :: st in snap.studies && Eligible(st, snap.panels, cat)
                               && st.panel !in AttributionPanels(s.registry) && w == StudyRender(st, cat))
  {
    PassRendersOnlyEligible(s.registry, snap.studies, snap.panels, cat);
  }

  /** A study whose key is not yet a rendered panel is deferred: within a pass it is as
      if it were absent, and once the panel exists the pass labels it if its type has a
      source and its descriptor panel carries no attribution label after the studies
      before it, counting labels from before the pass. */
  lemma PanelNotReadyDeferred(registry: seq<Marker>, pre: seq<Study>, s: Study, post: seq<Study>,
                              panels: set<string>, cat: Catalog)
    ensures s.key !in panels ==>
              StudyPass(registry, pre + [s] + post, panels, cat) == StudyPass(registry, pre + post, panels, cat)
    ensures HasSource(cat, s.studyType)
            && s.panel !in AttributionPanels(StudyPass(registry, pre, panels + {s.key}, cat).registry) ==>
              StudyRender(s, cat) in StudyPass(registry, pre + [s] + post, panels + {s.key}, cat).renders
  {
    assert pre + [s] + post == pre + ([s] + post);
    if s.key !in panels {
      var before := StudyPass(registry, pre, panels, cat);
      StepThenPass(before.registry, s, post, panels, cat);
      assert StudyPass(before.registry, [s] + post, panels, cat) == StudyPass(before.registry, post, panels, cat);
      PassConcat(registry, pre, [s] + post, panels, cat);
      PassConcat(registry, pre, post, panels, cat);
    }
    var wider := panels + {s.key};
    var before := StudyPass(registry, pre, wider, cat);
    if HasSource(cat, s.studyType) && s.panel !in AttributionPanels(before.registry) {
      StepThenPass(before.registry, s, post, wider, cat);
      assert StudyRender(s, cat) in StudyPass(before.registry, [s] + post, wider, cat).renders;
      PassConcat(registry, pre, [s] + post, wider, cat);
    }
  }

  /** A pass over one study is that study's step. */
  lemma SingleStudyPass(registry: seq<Marker>, s: Study, panels: set<string>, cat: Catalog)
    ensures StudyPass(registry, [s], panels, cat) == StudyStep(registry, s, panels, cat)
  {
    var step := StudyStep(registry, s, panels, cat);
    assert [s][0] == s && [s][1..] == [];
    assert StudyPass(step.registry, [], panels, cat) == Pass(step.registry, []);
    assert step.renders + [] == step.renders;
  }

  /** A pass over a leading study is that study's step followed by the rest. */
  lemma StepThenPass(registry: seq<Marker>, s: Study, post: seq<Study>, panels: set<string>, cat: Catalog)
    ensures var step := StudyStep(registry, s, panels, cat);
            var rest := StudyPass(step.registry, post, panels, cat);
            StudyPass(registry, [s] + post, panels, cat) == Pass(rest.registry, step.renders + rest.renders)
  {
    assert ([s] + post)[0] == s && ([s] + post)[1..] == post;
  }
}

=== FILE: catalog.dfy ===
/** The attribution message catalog: data-source identifiers (and study types) and
    exchange / quote-type identifiers mapped to display fragments. The fragments may
    hold markup; here they are opaque strings. */
module Catalog {

  datatype Catalog = Catalog(sources: map<string, string>, exchanges: map<string, string>)

  /** The catalog the component ships with. Integrators may supplement or override it,
      so every operation of the synchronizer takes the catalog as a parameter. */
  const Messages := Catalog(
    map[
      "simulator" := "Simulated data.",
      "demo" := "Demo data.",
      "xignite" := "<a target=\"_blank\" href=\"https://www.xignite.com\">Market Data</a> by Xignite.",
      "Twiggs" := "Formula courtesy <a target=\"_blank\" href=\"https://www.incrediblecharts.com/indicators/twiggs_money_flow.php\">IncredibleCharts</a>."
    ],
    map[
      "RANDOM" := "Data is randomized.",
      "REAL-TIME" := "Data is real-time.",
      "DELAYED" := "Data delayed 15 min.",
      "BATS" := "BATS BZX real-time.",
      "EOD" := "End of day data."
    ])

  /** A catalog lookup followed by the falsy-to-empty coercion: a missing key and an
      empty entry both yield the empty string, and nothing else does. */
  function Resolve(m: map<string, string>, key: string): (r: string)
    ensures r == "" <==> key !in m || m[key] == ""
    ensures r != "" ==> key in m && r == m[key]
  {
    if key in m then m[key] else ""
  }

  /** The truthiness test a study type must pass to be attributable: a non-empty
      source entry. */
  predicate HasSource(cat: Catalog, studyType: string) {
    Resolve(cat.sources, studyType) != ""
  }
}

=== FILE: color_picker.dfy ===
/** The colour picker's swatch colour: the value 'auto' stands for the theme's default
    foreground. Popover state and layout are not modelled. */
module ColorPicker {

  const Auto := "auto"
  const LightTheme := "light"
  const Black := "#000000"
  const White := "#ffffff"

  /** Black on the light theme, white on every other theme. */
  function DefaultColor(theme: string): (c: string)
    ensures c == Black <==> theme == LightTheme
    ensures c == Black || c == White
  {
    if theme == LightTheme then Black else White
  }

  /** The swatch colour: 'auto' resolves to the theme default, anything else is shown
      as it is. */
  function BackgroundColor(color: string, theme: string): (c: string)
    ensures color != Auto ==> c == color
    ensures color == Auto ==> c == DefaultColor(theme)
  {
    if color == Auto then DefaultColor(theme) else color
  }

  /** The swatch colour is never 'auto', so resolving it again changes nothing; and a
      concrete colour shows the same on every theme. */
  lemma BackgroundColorResolved(color: string, theme: string, other: string)
    ensures BackgroundColor(color, theme) != Auto
    ensures BackgroundColor(BackgroundColor(color, theme), other) == BackgroundColor(color, theme)
    ensures color != Auto ==> BackgroundColor(color, theme) == BackgroundColor(color, other)
  {
  }
}

=== FILE: decimal.dfy ===
/** The decimal rendering of an integer, as a template literal produces it, and its
    inverse. */
module Decimal {

  import opened Wrappers

  predicate IsDigit(c: char) {
    '0' <= c <= '9'
  }

  predicate AllDigits(s: string) {
    forall i :: 0 <= i < |s| ==> IsDigit(s[i])
  }

  function DigitValue(c: char): (d: nat)
    requires IsDigit(c)
    ensures d < 10
  {
    c as int - '0' as int
  }

  function DigitChar(d: nat): (c: char)
    requires d < 10
    ensures IsDigit(c) && DigitValue(c) == d
  {
    ('0' as int + d) as char
  }

  /** Digits without leading zeros, most significant first. */
  function NatToString(n: nat): (s: string)
    ensures |s| >= 1 && AllDigits(s)
    ensures |s| > 1 ==> s[0] != '0'
    decreases n
  {
    if n < 10 then [DigitChar(n)]
    else NatToString(n / 10) + [DigitChar(n % 10)]
  }

  function DigitsValue(s: string): nat
    requires AllDigits(s)
    decreases |s|
  {
    if s == [] then 0
    else DigitsValue(s[..|s| - 1]) * 10 + DigitValue(s[|s| - 1])
  }

  lemma {:induction false} NatRoundTrip(n: nat)
    ensures DigitsValue(NatToString(n)) == n
    decreases n
  {
    if n >= 10 {
      var s := NatToString(n);
      NatRoundTrip(n / 10);
      assert s[..|s| - 1] == NatToString(n / 10);
    }
  }

  function IntToString(i: int): (s: string)
    ensures |s| >= 1
  {
    if i < 0 then "-" + NatToString(-i) else NatToString(i)
  }

  function ParseInt(s: string): Option<int> {
    if |s| >= 2 && s[0] == '-' && AllDigits(s[1..]) then Some(-(DigitsValue(s[1..]) as int))
    else if |s| >= 1 && AllDigits(s) then Some(DigitsValue(s))
    else None
  }

  /** Rendering an integer and parsing it back gives the integer. */
  lemma IntRoundTrip(i: int)
    ensures ParseInt(IntToString(i)) == Some(i)
  {
    var s := IntToString(i);
    if i < 0 {
      assert s[0] == '-' && s[1..] == NatToString(-i);
      NatRoundTrip(-i);
    } else {
      assert IsDigit(s[0]);
      NatRoundTrip(i);
    }
  }
}

=== FILE: font_setting.dfy ===
/** The font setting widget's value updates: every change spreads a one-key record over
    the current font value and hands the result to `onChange`. The bold and italic
    toggles read the value back through truthiness; the two drop-downs are given a
    `title` prop computed the same way, which the drop-down does not read. */
module FontSetting {

  import opened Wrappers
  import opened Decimal

  /** A property value of the font record: a string, or `undefined` (which the spread
      still copies as a present key). */
  datatype JsValue = Str(text: string) | Undefined

  type Font = map<string, JsValue>

  const FamilyKey := "family"
  const SizeKey := "size"
  const WeightKey := "weight"
  const StyleKey := "style"

  const Families := ["Default", "Helvetica", "Courier", "Garamond", "Palatino", "Times New Roman"]
  const FontSizes := [8, 10, 12, 13, 14, 16, 20, 28, 36, 48, 64]
  const DefaultSizeTitle := "13px"

  predicate Truthy(v: JsValue) {
    v.Str? && v.text != ""
  }

  /** `after` differs from `before` at most at `key`, which it holds. */
  predicate OnlyKeyChanged(before: Font, after: Font, key: string) {
    && after.Keys == before.Keys + {key}
    && (forall k :: k in before && k != key ==> after[k] == before[k])
  }

  /** The object spread `{ ...value, ...change }`: the change's keys win, every other key
      of the value is kept, and no other key appears. */
  function FireChange(value: Font, change: Font): (r: Font)
    ensures r.Keys == value.Keys + change.Keys
    ensures forall k :: k in change ==> r[k] == change[k]
    ensures forall k :: k in value && k !in change ==> r[k] == value[k]
  {
    value + change
  }

  /** A size as the widget stores it: the number followed by 'px'. */
  function Px(size: int): string {
    IntToString(size) + "px"
  }

  function ParsePx(s: string): Option<int> {
    if |s| >= 2 && s[|s| - 2..] == "px" then ParseInt(s[..|s| - 2]) else None
  }

  function OnFontFamilyChange(value: Font, family: string): (r: Font)
    ensures OnlyKeyChanged(value, r, FamilyKey) && r[FamilyKey] == Str(family)
  {
    FireChange(value, map[FamilyKey := Str(family)])
  }

  function OnFontSizeChange(value: Font, size: int): (r: Font)
    ensures OnlyKeyChanged(value, r, SizeKey) && r[SizeKey] == Str(Px(size))
  {
    FireChange(value, map[SizeKey := Str(Px(size))])
  }

  function OnBoldChange(value: Font, isBold: bool): (r: Font)
    ensures OnlyKeyChanged(value, r, WeightKey)
    ensures r[WeightKey] == (if isBold then Str("bold") else Undefined)
  {
    FireChange(value, map[WeightKey := if isBold then Str("bold") else Undefined])
  }

  function OnItalicChange(value: Font, isItalic: bool): (r: Font)
    ensures OnlyKeyChanged(value, r, StyleKey)
    ensures r[StyleKey] == (if isItalic then Str("italic") else Undefined)
  {
    FireChange(value, map[StyleKey := if isItalic then Str("italic") else Undefined])
  }

  /** Whether a key of the value is present and truthy. */
  predicate IsSet(value: Font, key: string) {
    key in value && Truthy(value[key])
  }

  /** The bold toggle's active state. */
  predicate IsBold(value: Font) {
    IsSet(value, WeightKey)
  }

  /** The italic toggle's active state. */
  predicate IsItalic(value: Font) {
    IsSet(value, StyleKey)
  }

  /** The `title` prop given to the size drop-down: the stored size, or '13px'. The
      drop-down ignores this prop, so it is never displayed. */
  function SizeTitle(value: Font): string {
    if IsSet(value, SizeKey) then value[SizeKey].text else DefaultSizeTitle
  }

  /** The `title` prop given to the family drop-down: the stored family, or the first
      family. The drop-down ignores this prop, so it is never displayed. */
  function FamilyTitle(value: Font): string {
    if IsSet(value, FamilyKey) then value[FamilyKey].text else Families[0]
  }

  // ---------------------------------------------------------------------------
  // Lemmas
  // ---------------------------------------------------------------------------

  /** The toggles show what was just chosen. */
  lemma TogglesShowChoice(value: Font, b: bool)
    ensures IsBold(OnBoldChange(value, b)) == b
    ensures IsItalic(OnItalicChange(value, b)) == b
    ensures IsItalic(OnBoldChange(value, b)) == IsItalic(value)
    ensures IsBold(OnItalicChange(value, b)) == IsBold(value)
  {
  }

  /** After a size change the size `title` prop is the chosen size, which parses back to
      the number chosen. */
  lemma SizeTitleRoundTrip(value: Font, size: int)
    ensures SizeTitle(OnFontSizeChange(value, size)) == Px(size)
    ensures ParsePx(SizeTitle(OnFontSizeChange(value, size))) == Some(size)
  {
    var s := Px(size);
    assert s[..|s| - 2] == IntToString(size);
    assert s[|s| - 2..] == "px";
    IntRoundTrip(size);
  }

  /** Every row of the size drop-down is stored as a size that parses back to that row,
      and the default size title is the stored form of one of the rows. */
  lemma SizeRowsRoundTrip(value: Font, i: nat)
    requires i < |FontSizes|
    ensures ParsePx(SizeTitle(OnFontSizeChange(value, FontSizes[i]))) == Some(FontSizes[i])
    ensures DefaultSizeTitle == Px(FontSizes[3])
  {
    SizeTitleRoundTrip(value, FontSizes[i]);
    assert IntToString(13) == NatToString(13) == "13";
  }

  /** After a family change the family `title` prop is the chosen family, or the default
      for an empty name. */
  lemma FamilyTitleHoldsChoice(value: Font, family: string)
    ensures FamilyTitle(OnFontFamilyChange(value, family)) == (if family == "" then "Default" else family)
  {
  }

  /** Changes to different keys commute, and repeating a change changes nothing more. */
  lemma ChangesCommuteAndSettle(value: Font, isBold: bool, isItalic: bool)
    ensures OnBoldChange(OnItalicChange(value, isItalic), isBold)
         == OnItalicChange(OnBoldChange(value, isBold), isItalic)
    ensures OnBoldChange(OnBoldChange(value, isBold), isBold) == OnBoldChange(value, isBold)
  {
  }
}

=== FILE: numeric_input.dfy ===
/** The value rules of the numeric input widget: clamping an incoming prop value to the
    optional bounds, clamping and reporting the edited value, and the +1 / -1 steppers.
    Rendering, event wiring and the debounce timing are not modelled. */
module NumericInput {

  import opened Wrappers

  /** The props the rules read: the incoming value and the optional bounds. */
  datatype Props = Props(value: int, min: Option<int>, max: Option<int>)

  /** The component state. `originalValue` is None for the constructor's empty string,
      which equals no number. */
  datatype InputState = InputState(originalValue: Option<int>, value: int)

  /** The state after construction. The constructor's empty-string value is never
      read: the first derivation always overwrites it, so 0 stands in for it. */
  const Constructed := InputState(None, 0)

  /** A new state together with the value handed to `onChange`. */
  datatype Report = Report(state: InputState, reported: int)

  predicate AboveMax(v: int, max: Option<int>) {
    max.Some? && v > max.value
  }

  predicate BelowMin(v: int, min: Option<int>) {
    min.Some? && v < min.value
  }

  /** Both bounds, where present, admit at least one value. */
  predicate BoundsOrdered(min: Option<int>, max: Option<int>) {
    min.None? || max.None? || min.value <= max.value
  }

  /** The bound rule shared by both clamps: a value above a defined maximum becomes the
      maximum; otherwise a value below a defined minimum becomes the minimum. */
  function Bound(v: int, min: Option<int>, max: Option<int>): (r: int)
    ensures r == v <==> !AboveMax(v, max) && !BelowMin(v, min)
    ensures AboveMax(v, max) ==> r == max.value
    ensures !AboveMax(v, max) && BelowMin(v, min) ==> r == min.value
    ensures BoundsOrdered(min, max) ==> !AboveMax(r, max) && !BelowMin(r, min)
  {
    if max.Some? && v > max.value then max.value
    else if min.Some? && v < min.value then min.value
    else v
  }

  /** Deriving state from new props: nothing happens for the value already seen;
      otherwise the raw value is remembered, the bounded value stored and reported. */
  function DeriveState(props: Props, state: InputState): (r: Option<Report>)
    ensures r.None? <==> state.originalValue == Some(props.value)
    ensures r.Some? ==>
              && r.value.reported == Bound(props.value, props.min, props.max)
              && r.value.state == InputState(Some(props.value), r.value.reported)
  {
    if Some(props.value) != state.originalValue then
      var bounded := Bound(props.value, props.min, props.max);
      Some(Report(InputState(Some(props.value), bounded), bounded))
    else
      None
  }

  /** Mounting copies the raw prop value into both fields. It runs after the first
      derivation, so it replaces the bounded value that derivation stored. */
  function DidMount(props: Props): (r: InputState)
    ensures r.originalValue == Some(props.value) && r.value == props.value
  {
    InputState(Some(props.value), props.value)
  }

  /** Firing the change for the edited value: an out-of-bounds value is replaced by the
      bound and that is reported; an in-bounds value is reported as it is. */
  function FireOnChange(props: Props, state: InputState): (r: Report)
    ensures r.reported == Bound(state.value, props.min, props.max)
    ensures r.state == state.(value := r.reported)
    ensures r.reported == state.value ==> r.state == state
  {
    if props.max.Some? && state.value > props.max.value then
      Report(state.(value := props.max.value), props.max.value)
    else if props.min.Some? && state.value < props.min.value then
      Report(state.(value := props.min.value), props.min.value)
    else
      Report(state, state.value)
  }

  /** The + button: the value goes up by one, then the change fires. */
  function OnIncrease(props: Props, state: InputState): (r: Report)
    ensures r.reported == Bound(state.value + 1, props.min, props.max)
    ensures r.state == state.(value := r.reported)
  {
    FireOnChange(props, state.(value := state.value + 1))
  }

  /** The - button: the value goes down by one, then the change fires. */
  function OnDecrease(props: Props, state: InputState): (r: Report)
    ensures r.reported == Bound(state.value - 1, props.min, props.max)
    ensures r.state == state.(value := r.reported)
  {
    FireOnChange(props, state.(value := state.value - 1))
  }

  // ---------------------------------------------------------------------------
  // Lemmas
  // ---------------------------------------------------------------------------

  /** Applying the derived state settles it: the same props derive nothing more and
      `onChange` is not called again. The first props ever seen always derive. */
  lemma DeriveSettles(props: Props, state: InputState)
    ensures state.originalValue.None? ==> DeriveState(props, state).Some?
    ensures DeriveState(props, state).Some? ==>
              DeriveState(props, DeriveState(props, state).value.state).None?
  {
  }

  /** After the first derivation, mounting keeps the stored value only when the prop was
      within bounds; otherwise the unbounded prop value is stored, and it stays there
      until the prop changes (the same prop derives nothing) or the change fires. */
  lemma MountUndoesFirstClamp(props: Props)
    ensures var first := DeriveState(props, Constructed);
            var mounted := DidMount(props);
            && first.Some?
            && (mounted.value == first.value.state.value <==>
                  !AboveMax(props.value, props.max) && !BelowMin(props.value, props.min))
            && DeriveState(props, mounted).None?
            && FireOnChange(props, mounted).state.value == first.value.state.value
  {
  }

  /** Both clamps apply the same rule: firing a change on the raw prop value reports what
      deriving state from that prop reported. */
  lemma DeriveAgreesWithFire(props: Props, state: InputState)
    requires DeriveState(props, state).Some?
    ensures FireOnChange(props, state.(value := props.value)).reported
         == DeriveState(props, state).value.reported
  {
  }

  /** With ordered bounds, bounding twice is bounding once. */
  lemma BoundIdempotent(v: int, min: Option<int>, max: Option<int>)
    requires BoundsOrdered(min, max)
    ensures Bound(Bound(v, min, max), min, max) == Bound(v, min, max)
  {
  }

  /** With crossed bounds the maximum wins, and the stored value is then below the
      minimum: firing the change again reports the minimum instead. */
  lemma CrossedBoundsFlip()
    ensures Bound(5, Some(10), Some(0)) == 0
    ensures Bound(Bound(5, Some(10), Some(0)), Some(10), Some(0)) == 10
  {
  }

  /** Within the bounds the steppers move the value by exactly one in each direction,
      and a step up followed by a step down restores the state. */
  lemma SteppersMoveByOne(props: Props, state: InputState)
    requires !AboveMax(state.value + 1, props.max) && !BelowMin(state.value, props.min)
    ensures OnIncrease(props, state).reported == state.value + 1
    ensures OnDecrease(props, OnIncrease(props, state).state) == Report(state, state.value)
  {
  }

  /** At or beyond a bound the steppers hold the bound. */
  lemma SteppersSaturate(props: Props, state: InputState)
    requires BoundsOrdered(props.min, props.max)
    ensures props.max.Some? && state.value >= props.max.value ==>
              OnIncrease(props, state).reported == props.max.value
    ensures props.min.Some? && state.value <= props.min.value ==>
              OnDecrease(props, state).reported == props.min.value
  {
  }
}

=== FILE: registry.dfy ===
/** The host chart's marker registry, as far as attribution labels use it: markers are
    only ever appended, and the synchronizer reads the panel names of the markers filed
    under the 'attribution' label. */
module Registry {

  const AttributionTag := "attribution"
  const NoPositioning := "none"

  /** A marker: the tag it is filed under, the panel it is bound to, and its
      horizontal and vertical positioners. */
  datatype Marker = Marker(tag: string, panelName: string, xPositioner: string, yPositioner: string)

  /** The panel names of the attribution markers, in insertion order. */
  function AttributionPanels(registry: seq<Marker>): seq<string>
  {
    if registry == [] then []
    else
      var last := registry[|registry| - 1];
      AttributionPanels(registry[..|registry| - 1])
        + (if last.tag == AttributionTag then [last.panelName] else [])
  }

  /** Registers a new label node as an unpositioned attribution marker on `panelName`. */
  function Insert(registry: seq<Marker>, panelName: string): (r: seq<Marker>)
    ensures |r| == |registry| + 1 && r[..|registry|] == registry
    ensures r[|registry|] == Marker(AttributionTag, panelName, NoPositioning, NoPositioning)
    ensures AttributionPanels(r) == AttributionPanels(registry) + [panelName]
  {
    var r := registry + [Marker(AttributionTag, panelName, NoPositioning, NoPositioning)];
    assert r[..|registry|] == registry;
    r
  }

  /** The linear scan over the attribution markers that looks for one bound to `panel`,
      stopping at the first match. */
  method HasAttributionFor(registry: seq<Marker>, panel: string) returns (found: bool)
    ensures found <==> panel in AttributionPanels(registry)
  {
    found := false;
    var i := 0;
    while i < |registry| && !found
      invariant 0 <= i <= |registry|
      invariant found <==> panel in AttributionPanels(registry[..i])
      invariant found ==> panel in AttributionPanels(registry)
    {
      assert registry[..i + 1][..i] == registry[..i];
      if registry[i].tag == AttributionTag && registry[i].panelName == panel {
        found := true;
      }
      PrefixPanels(registry, i + 1);
      i := i + 1;
    }
    assert !found ==> registry[..i] == registry;
  }

  /** The attribution panels of a prefix are a prefix of the attribution panels. */
  lemma {:induction false} PrefixPanels(registry: seq<Marker>, n: nat)
    requires n <= |registry|
    ensures exists tail :: AttributionPanels(registry) == AttributionPanels(registry[..n]) + tail
    decreases |registry|
  {
    if n == |registry| {
      assert registry[..n] == registry;
      assert AttributionPanels(registry) == AttributionPanels(registry[..n]) + [];
    } else {
      var init := registry[..|registry| - 1];
      PrefixPanels(init, n);
      assert init[..n] == registry[..n];
      var tail :| AttributionPanels(init) == AttributionPanels(init[..n]) + tail;
      var last := registry[|registry| - 1];
      var extra := if last.tag == AttributionTag then [last.panelName] else [];
      assert AttributionPanels(registry) == AttributionPanels(registry[..n]) + (tail + extra);
    }
  }
}

=== FILE: wrappers.dfy ===
/** The optional-value datatype used wherever the source has `undefined` or `null`. */
module Wrappers {

  datatype Option<+T> = None | Some(value: T)
}
